=== FILE: README.md ===
# Calculator loop of `simple_package`

A Dafny model of the interactive calculator in `simple_package/operations.py`:
the four arithmetic primitives, the keyword table that binds command names
(with the aliases `sub`, `mul`, `div`) to a callable and an arity, and the
`while True` loop of `calculator_interface`. Each turn of the loop prints the
prompt `calc> `, reads a line, strips it and then does one of these:

- skips a blank line;
- leaves the loop on `exit`, in any letter case, as the whole line;
- prints the help text on `help`, in any letter case, as the whole line;
- reports an unknown command;
- reports an arity mismatch;
- parses the arguments, calls the function and prints the result or the
  message of the `except` clause that caught the error.

End of input and a keyboard interrupt print `\nExiting.` and end the loop.

The files are:

- `wrap.dfy` (module `Wrap`): `Option` and `Result`.
- `pystr.dfy` (module `PyStr`): the pieces of Python's `str` that the loop uses.
  These are `strip()`, `lower()` and `split()`, over Python's whitespace
  characters, and `str()` of an integer.
- `operations.dfy` (module `Operations`): the primitives, the callables, the
  table, the kinds of error, the evaluation of a call and `_format_number`.
- `commands.dfy` (module `Commands`): the classification of a line, the
  execution of a dispatched command, the `except` mapping, and the printed text.
- `session.dfy` (module `Session`): the loop as a two-mode machine
  (`Running`, `Terminated`) folded over the reads, and the same loop written as
  a `while` statement that is proved to produce the same transcript.

Floats are modelled as exact reals. `float()` on one token and the functions
of the `math` module are not modelled; they are parameters of the model (a
`Host`). `float()` is a partial function from a token to a real. `math` is a
function from a callable and its arguments to a value or a raised error kind.
Input is a sequence of reads. Each read is a line or an interrupt, and end of
input is the end of the sequence. Output is a sequence of events.

`ValueError` is caught by the first `except` clause. It covers a token that is
not a number, and also a math-domain error such as `sqrt -1` or `log 0`.
Both print `Error: could not parse number(s).` The model keeps this, as
`Commands.DomainErrorReadsAsParseError` states.

The code ends the loop on `exit` without printing anything more. The farewell
`\nExiting.` is printed only at end of input and on an interrupt. The model
follows the code (`Session.Step`, `Session.LastEvent`).

## Model

| member | source | states |
|---|---|---|
| `Operations.Divide` | simple_package/operations.py:41-43 | division succeeds exactly when the divisor is non-zero, the result times the divisor gives back the dividend, and a zero divisor raises ZeroDivisionError |
| `Operations.PrimitivesInvert` | simple_package/operations.py:29-43 | subtract undoes add and add undoes subtract; for a non-zero divisor, divide undoes multiply and multiply undoes divide |
| `Operations.TableContents` | simple_package/operations.py:69-84 | the table has exactly the fourteen keywords; `sub`, `mul` and `div` have the same entry as `subtract`, `multiply` and `divide`; the arity is 2 for add, subtract, multiply, divide and pow (and their aliases) and 1 for sin, cos, tan, log, log10 and sqrt |
| `Operations.TableBindings` | simple_package/operations.py:69-84 | each of the fourteen keywords is bound to its callable and arity: add, subtract/sub, multiply/mul and divide/div to the four primitives with 2, sin, cos, tan, log, log10 and sqrt to the `math` function of that name with 1, pow to `math.pow` with 2 |
| `Operations.KeywordsNotInTable` | simple_package/operations.py:69-84 | `exit` and `help` are not table keywords, so they only act as whole-line keywords |
| `Operations.TableWellFormed` | simple_package/operations.py:69-84 | every registered arity is the number of arguments the loop passes to the callable it guards; every keyword is a lower-case word with no whitespace |
| `Operations.Evaluate` | simple_package/operations.py:120 | `func(*nums)`: add, subtract and multiply give the sum, difference and product; divide gives the quotient for a non-zero divisor and raises ZeroDivisionError for zero; a primitive raises nothing else; a `math` function gives exactly what `math` gives |
| `Operations.ParseAll` | simple_package/operations.py:119 | the list comprehension of `float()` succeeds exactly when every token parses, and then gives each token's value in order |
| `Operations.FormatNumber` | simple_package/operations.py:46-49 | the result is shown as an int exactly when the float has no fractional part, and the shown number equals the result |
| `PyStr.Strip` | simple_package/operations.py:92 | `strip()` is empty exactly for an all-whitespace line; otherwise its first and last characters are not whitespace |
| `PyStr.StripExact` | simple_package/operations.py:92 | `strip()` removes exactly the surrounding whitespace and keeps whatever lies between |
| `PyStr.StripLower` | simple_package/operations.py:92-99 | stripping and lower-casing commute |
| `PyStr.LowerFoldsAscii` | simple_package/operations.py:99-106 | the model's ASCII `lower()` keeps the length, turns each ASCII capital into its small letter, keeps every other character, and leaves no ASCII capital |
| `PyStr.LowerIdempotent` | simple_package/operations.py:106 | lower-casing a lower-cased string changes nothing |
| `PyStr.Split` | simple_package/operations.py:105 | every token of `split()` is non-empty and free of whitespace, and there are no tokens exactly when the line is all whitespace |
| `PyStr.SplitWeave` | simple_package/operations.py:105 | round trip: words laid out with any non-empty run of whitespace in each gap, each gap its own, and padded by any whitespace split back into the same words |
| `PyStr.SplitStrip` | simple_package/operations.py:105 | splitting the stripped line gives the tokens of the raw line |
| `PyStr.SplitLower` | simple_package/operations.py:105-106 | the tokens of the lower-cased line are the lower-cased tokens |
| `PyStr.NatToStringValue` | simple_package/operations.py:115 | reading the decimal digits of `str(n)` back gives `n` |
| `PyStr.IntToStringInjective` | simple_package/operations.py:121 | different integers print as different text |
| `Commands.Lookup` | simple_package/operations.py:105-116 | the command is the lower-cased first token; the command is unknown exactly when that token is not a key; an arity mismatch reports the registered arity and the actual number of arguments, which differ; a dispatch carries the table entry and exactly the argument tokens, as many as the arity |
| `Commands.LookupDispatches` | simple_package/operations.py:109-120 | a known keyword followed by exactly as many tokens as its arity dispatches to its table entry with those tokens |
| `Commands.Classify` | simple_package/operations.py:92-116 | a line is skipped exactly when it is blank; it exits or shows help exactly when the stripped line lower-cases to `exit` or `help`; any other line goes to the table lookup on its tokens |
| `Commands.WholeLineKeyword` | simple_package/operations.py:99-103 | a keyword with no whitespace equals the lower-cased stripped line exactly when the line has one token and that token lower-cases to the keyword |
| `Commands.ExitIsWholeLine` | simple_package/operations.py:99-100 | a line exits exactly when it has one token and that token lower-cases to `exit` |
| `Commands.HelpIsWholeLine` | simple_package/operations.py:101-103 | a line shows help exactly when it has one token and that token lower-cases to `help` |
| `Commands.KeywordWithArgumentsIsUnknown` | simple_package/operations.py:99-111 | `exit` or `help` followed by more tokens is reported as the unknown command `exit` or `help` |
| `Commands.LookupLower` | simple_package/operations.py:106-113 | looking up lower-cased tokens gives the same outcome as looking up the tokens, except that the argument tokens of a dispatch are lower-cased |
| `Commands.ClassifyLower` | simple_package/operations.py:99-113 | lower-casing the whole line changes the outcome only in the letter case of the argument tokens |
| `Commands.CaseInsensitive` | simple_package/operations.py:99-115 | two lines that are equal up to letter case take the same branch, with the same command name, arity and argument count |
| `Commands.FirstTokenCase` | simple_package/operations.py:106-115 | changing the letter case of the first token alone does not change the outcome at all |
| `Commands.LookupByFoldedCommand` | simple_package/operations.py:106-113 | the lookup depends only on the lower-cased first token and the argument tokens |
| `Commands.Execute` | simple_package/operations.py:118-121 | a token that does not parse raises ValueError; when every token parses, a successful call prints `_format_number` of the function's value of the parsed numbers and a failing call passes its error kind on unchanged; a primitive can only raise ZeroDivisionError, for a division by a parsed zero |
| `Commands.PrimitiveComputes` | simple_package/operations.py:29-39 | a dispatched add, subtract or multiply whose two tokens parse prints the sum, difference or product of the parsed numbers |
| `Commands.DivideByZeroCaught` | simple_package/operations.py:118-125 | a division by a parsed zero is caught as ZeroDivisionError; any other parsed divisor prints the quotient |
| `Commands.DomainErrorReadsAsParseError` | simple_package/operations.py:119-123 | a math-domain ValueError prints the same message as a token that is not a number |
| `Commands.ErrorText` | simple_package/operations.py:122-129 | every caught error prints a line starting with `Error: `, and any other exception prints its own text after it |
| `Commands.ErrorTextDistinct` | simple_package/operations.py:122-129 | different error kinds print different messages, unless a generic error's own text repeats one of the three fixed messages |
| `Commands.ErrorMessages` | simple_package/operations.py:122-127 | the three named `except` clauses print exactly "Error: could not parse number(s).", "Error: division by zero." and "Error: numerical result out of range." |
| `Commands.DivideTokensByZero` | simple_package/operations.py:109-125 | `divide x 0` or `div x 0`, in any letter case, with a number `x`, dispatches to divide and prints "Error: division by zero." |
| `Commands.AddTokens` | simple_package/operations.py:109-121 | `add x y`, in any letter case, with two numbers prints `_format_number` of their sum |
| `Commands.PowOverflowTokens` | simple_package/operations.py:109-127 | `pow x y`, in any letter case, whose result `math.pow` reports as out of range prints "Error: numerical result out of range." |
| `Commands.ClassifyDispatchable` | simple_package/operations.py:113-120 | every dispatched line calls its callable with exactly as many numbers as it takes |
| `Commands.React` | simple_package/operations.py:97-129 | a blank line and `exit` print nothing; `help` prints the help text; an unknown command prints its notice with the command name; an arity mismatch prints its notice with the command, the registered arity and the argument count; a dispatch prints the value of a successful call or the message of the error it raised; nothing else is printed |
| `Commands.NothingEvaluatedBeforeDispatch` | simple_package/operations.py:97-116 | only a dispatched command looks at `float()` or `math`: unknown commands, arity mismatches, help, blank lines and `exit` print the same whatever they would do |
| `Commands.ReactDivideByZero` | simple_package/operations.py:118-125 | a dispatched division by a parsed zero prints the division-by-zero message |
| `Commands.Render` | simple_package/operations.py:89-129 | every line the loop prints ends with a newline, and the prompt has no newline at all; the text of a value is given except for a non-integral float |
| `Commands.RenderTexts` | simple_package/operations.py:89-121 | the printed text of each event: the banner, the prompt `calc> ` with no newline, the farewell `\nExiting.`, the help text, `Unknown command: <cmd>. Type 'help' for usage.` with the lower-cased command, `<cmd> expects <arity> argument(s); got <count>` with the registered arity first, and an integral result as `str()` of the integer |
| `Commands.AddTwoThree` | simple_package/operations.py:109-121 | with a `float()` that reads `2` and `3` as those numbers, `add 2 3` prints `5` |
| `Commands.RenderWholeInjective` | simple_package/operations.py:121 | two integral results print alike only when they are equal |
| `Session.ClassifyRead` | simple_package/operations.py:91-95 | a read is an interrupt exactly when the `input()` call was interrupted; a read line is given the outcome `Classify` assigns to its text, so what the loop prints for it is what `React` prints for that outcome |
| `Session.Step` | simple_package/operations.py:90-129 | one turn prints the prompt first and no other prompt, and never the banner; a stopped loop does nothing; the loop stops exactly on an interrupt or `exit`; a read line prints the prompt followed by what its outcome prints; a blank line prints only the prompt and goes on; an interrupt adds the farewell and `exit` adds nothing |
| `Session.StopsOnRead` | simple_package/operations.py:93-100 | the reads that end the loop are exactly an interrupt and a line that strips to `exit` in any letter case; every other line, errors included, keeps the loop running |
| `Session.HelpLine` | simple_package/operations.py:101-103 | a line whose one token is `help` in any letter case prints the prompt and the help text, and the loop goes on |
| `Session.BlankLineSkipped` | simple_package/operations.py:92-98 | a line is skipped exactly when it is blank |
| `Session.BlankLineOnlyPrompts` | simple_package/operations.py:97-98 | a blank line adds one prompt to the transcript and changes nothing else |
| `Session.DivisionByZeroContinues` | simple_package/operations.py:124-125 | after a division by zero the loop prints the message and keeps running |
| `Session.Loop` | simple_package/operations.py:90-129 | the loop takes no more reads than there are; a stopped loop prints nothing; a running loop starts with a prompt; the loop never prints the banner |
| `Session.Replay` | simple_package/operations.py:89-90 | the banner is printed first and never again, then the first prompt, and no more reads are taken than there are |
| `Session.Run` | simple_package/operations.py:89-90 | a session prints the banner and then a prompt, and takes no more reads than there are |
| `Session.FirstStop` | simple_package/operations.py:93-100 | the position of the first interrupt or `exit` line, with no stop before it |
| `Session.TakenUpToFirstStop` | simple_package/operations.py:90-100 | the loop reads up to and including the first interrupt or `exit`, or all reads when there is none |
| `Session.InputAfterStopIgnored` | simple_package/operations.py:93-100 | nothing after the first stopping read changes the transcript |
| `Session.StopEndsSession` | simple_package/operations.py:93-100 | a stopping read after reads that do not stop ends the session there: the later reads are ignored, and the last thing printed is its prompt (`exit`) or the farewell (interrupt) |
| `Session.LastEvent` | simple_package/operations.py:93-100 | the loop ends on the prompt of an `exit` line, and otherwise on the farewell |
| `Session.PromptPerRead` | simple_package/operations.py:92 | one prompt is printed for each read taken, plus one for the read that finds the end of input |
| `Session.FirstStopAt` | simple_package/operations.py:93-100 | the first stop is at the first position whose read stops the loop |
| `Session.ClassifyAllAppend` | simple_package/operations.py:90-92 | the lines are classified one at a time, each on its own |
| `Session.Interact` | simple_package/operations.py:89-129 | the `while` loop, statement by statement, prints and reads exactly what the fold over the reads does |

## Left out

- `simple_package/statistics.py`, `simple_package/graphics.py` and
  `simple_package/__init__.py` are not part of this model. They wrap numpy
  and matplotlib or only re-export names.
- `input()` and `print()` are not modelled. A read is a line or an interrupt,
  and end of input is the end of the sequence of reads; printing is an event.
  EOFError and KeyboardInterrupt are handled alike, so one `Interrupt` read and
  the end of input stand for both.
- Floating point is not modelled: numbers are exact reals. Rounding, `inf`,
  `nan` and overflow of the primitives are not modelled. An OverflowError can
  still come from `math`, through the `Host`.
- `float()` parsing and the functions of the `math` module are not modelled.
  They are parameters of the model, so which tokens parse and which calls
  raise is left open.
- `Commands.Render` and `Commands.RenderTexts`: do not give the text of a non-integral float, because
  that is Python's `repr` of the float, which is not modelled.
- `PyStr.LowerFoldsAscii` and `PyStr.Lower`: fold only the ASCII letters, while Python's `lower()` folds
  all of Unicode and can even lengthen a string (U+0130 becomes two code
  points); `Lower` always keeps the length. The loop lower-cases only the
  stripped line and the first token; the argument tokens are never
  lower-cased. The only non-ASCII characters whose Python lower case
  contains an ASCII letter are U+212A KELVIN SIGN (to `k`, in no keyword)
  and U+0130 (to `i` followed by a combining dot, which no keyword
  contains). So every line takes the same branch in Python and in the
  model; only the printed name of an unknown command with non-ASCII
  capitals can differ.
- The `if __name__ == '__main__'` entry point is not modelled.

=== FILE: commands.dfy ===
/** One iteration of the calculator loop, once a line has been read: how the
    stripped line is classified, how a dispatched command is executed, how a
    raised error becomes a message, and the exact text that is printed. */
module Commands {
  import opened Wrap
  import opened PyStr
  import opened Operations

  // ---------------------------------------------------------------------------
  // Classification of a line

  /** The branch of the loop body a line takes. */
  datatype Outcome =
    | Skip                                                  // blank line
    | Exit                                                  // the whole line is "exit"
    | Help                                                  // the whole line is "help"
    | UnknownCommand(cmd: string)                           // first token not in the table
    | ArityMismatch(cmd: string, expected: nat, got: nat)   // wrong number of arguments
    | Dispatch(cmd: string, entry: Entry, args: seq<string>)
  {
    /** The same outcome with the argument tokens lower-cased. */
    function Folded(): Outcome {
      if Dispatch? then Dispatch(cmd, entry, LowerAll(args)) else this
    }
  }

  /** The table lookup and the arity check, on the tokens of a line that is
      neither blank nor one of the two keywords. Nothing is parsed here. */
  function Lookup(parts: seq<string>): (o: Outcome)
    requires |parts| > 0
    ensures o.UnknownCommand? || o.ArityMismatch? || o.Dispatch?
    ensures o.cmd == Lower(parts[0])
    ensures o.UnknownCommand? <==> Lower(parts[0]) !in Table
    ensures o.ArityMismatch? ==>
      o.expected == Table[o.cmd].arity && o.got == |parts| - 1 && o.got != o.expected
    ensures o.Dispatch? ==>
      o.entry == Table[o.cmd] && o.args == parts[1..] && |o.args| == o.entry.arity
    ensures o.Dispatch? ==> o.entry.arity == o.entry.func.Params()
  {
    TableWellFormed();
    var cmd := Lower(parts[0]);
    var args := parts[1..];
    if cmd !in Table then UnknownCommand(cmd)
    else if |args| != Table[cmd].arity then ArityMismatch(cmd, Table[cmd].arity, |args|)
    else Dispatch(cmd, Table[cmd], args)
  }

  /** The loop body's decision for one raw input line: strip it, then skip,
      exit, show help, or look the first token up. */
  function Classify(raw: string): (o: Outcome)
    ensures o.Skip? <==> AllSpace(raw)
    ensures o.Exit? <==> Lower(Strip(raw)) == "exit"
    ensures o.Help? <==> Lower(Strip(raw)) == "help"
    ensures !(o.Skip? || o.Exit? || o.Help?) ==> |Split(raw)| > 0 && o == Lookup(Split(raw))
  {
    var line := Strip(raw);
    if line == [] then Skip
    else
      var key := Lower(line);
      assert |key| > 0;
      if key == "exit" then Exit
      else if key == "help" then Help
      else
        SplitStrip(raw);
        var parts := Split(line);
        assert parts == Split(raw) && |parts| > 0;
        Lookup(parts)
  }

  /** Lower-casing changes nothing about a string's whitespace. */
  lemma NoSpaceLower(s: string)
    requires NoSpace(Lower(s))
    ensures NoSpace(s)
  {
    forall i | 0 <= i < |s|
      ensures !IsSpace(s[i])
    {
      assert Lower(s)[i] == LowerChar(s[i]);
      LowerCharKeepsSpace(s[i]);
    }
  }

  /** A line consisting of exactly one token strips to that token. */
  lemma SingleTokenStrip(raw: string)
    requires |Split(raw)| == 1
    ensures Strip(raw) == Split(raw)[0]
  {
    var core := Strip(raw);
    SplitStrip(raw);
    var n := WordLength(core);
    assert Split(core) == [core[..n]] + Split(core[n..]);
    assert AllSpace(core[n..]);
    assert core[..n] == core;
  }

  /** A keyword without whitespace matches the whole stripped line exactly
      when the line has that keyword as its one and only token. */
  lemma WholeLineKeyword(raw: string, kw: string)
    requires IsWord(kw)
    ensures Lower(Strip(raw)) == kw <==> |Split(raw)| == 1 && Lower(Split(raw)[0]) == kw
  {
    SplitStrip(raw);
    if Lower(Strip(raw)) == kw {
      NoSpaceLower(Strip(raw));
      SplitOneWord(Strip(raw));
    }
    if |Split(raw)| == 1 {
      SingleTokenStrip(raw);
    }
  }

  /** "exit" ends the loop only as the entire line, in any letter case. */
  lemma ExitIsWholeLine(raw: string)
    ensures Classify(raw).Exit? <==> |Split(raw)| == 1 && Lower(Split(raw)[0]) == "exit"
  {
    WholeLineKeyword(raw, "exit");
  }

  /** "help" shows the help text only as the entire line, in any letter case. */
  lemma HelpIsWholeLine(raw: string)
    ensures Classify(raw).Help? <==> |Split(raw)| == 1 && Lower(Split(raw)[0]) == "help"
  {
    WholeLineKeyword(raw, "help");
  }

  /** "help me" or "exit now" are not the keywords: they fall through to the
      table lookup and are reported as unknown commands "help" or "exit". */
  lemma KeywordWithArgumentsIsUnknown(raw: string)
    requires |Split(raw)| >= 2
    requires Lower(Split(raw)[0]) == "exit" || Lower(Split(raw)[0]) == "help"
    ensures Classify(raw) == UnknownCommand(Lower(Split(raw)[0]))
  {
    var o := Classify(raw);
    assert !o.Skip?;
    ExitIsWholeLine(raw);
    HelpIsWholeLine(raw);
    assert o == Lookup(Split(raw));
    KeywordsNotInTable();
  }

  /** Lower-casing the tokens changes the lookup only in the case of the
      argument tokens handed to the dispatched function. */
  lemma LookupLower(parts: seq<string>)
    requires |parts| > 0
    ensures Lookup(LowerAll(parts)) == Lookup(parts).Folded()
  {
    LowerIdempotent(parts[0]);
    assert LowerAll(parts)[1..] == LowerAll(parts[1..]);
  }

  /** Lower-casing the whole line changes the outcome only in the case of
      the argument tokens handed to the dispatched function. */
  lemma ClassifyLower(raw: string)
    ensures Classify(Lower(raw)) == Classify(raw).Folded()
  {
    var l := Lower(raw);
    StripLower(raw);
    LowerIdempotent(Strip(raw));
    assert AllSpace(l) <==> AllSpace(raw) by {
      forall i | 0 <= i < |raw|
        ensures IsSpace(l[i]) <==> IsSpace(raw[i])
      {
        assert l[i] == LowerChar(raw[i]);
        LowerCharKeepsSpace(raw[i]);
      }
    }
    if !AllSpace(raw) && Lower(Strip(raw)) != "exit" && Lower(Strip(raw)) != "help" {
      SplitLower(raw);
      LookupLower(Split(raw));
    }
  }

  /** Keyword lookup ignores letter case: two lines equal up to case reach
      the same branch, with the same command name and arity numbers. */
  lemma CaseInsensitive(s: string, t: string)
    requires Lower(s) == Lower(t)
    ensures Classify(s).Folded() == Classify(t).Folded()
  {
    ClassifyLower(s);
    ClassifyLower(t);
  }

  /** The lookup sees only the lower-cased first token and the argument tokens. */
  lemma LookupByFoldedCommand(p: seq<string>, q: seq<string>)
    requires |p| > 0 && |q| > 0
    requires Lower(p[0]) == Lower(q[0]) && p[1..] == q[1..]
    ensures Lookup(p) == Lookup(q)
  {
  }

  /** Changing the letter case of the first token alone does not change
      the outcome at all. */
  lemma FirstTokenCase(s: string, t: string)
    requires |Split(s)| > 0 && |Split(t)| > 0
    requires Lower(Split(s)[0]) == Lower(Split(t)[0])
    requires Split(s)[1..] == Split(t)[1..]
    ensures Classify(s) == Classify(t)
  {
    assert |Split(s)| == |Split(t)| by {
      assert |Split(s)[1..]| == |Split(t)[1..]|;
    }
    var a, b := Classify(s), Classify(t);
    assert !a.Skip? && !b.Skip?;
    if |Split(s)| == 1 {
      SingleTokenStrip(s);
      SingleTokenStrip(t);
      assert Lower(Strip(s)) == Lower(Strip(t));
    } else {
      ExitIsWholeLine(s);
      ExitIsWholeLine(t);
      HelpIsWholeLine(s);
      HelpIsWholeLine(t);
    }
    if !(a.Exit? || a.Help?) {
      LookupByFoldedCommand(Split(s), Split(t));
    }
  }

  // ---------------------------------------------------------------------------
  // Executing a dispatched command

  /** What the calculator needs from the host: `float()` on one token, and
      the functions of the `math` module. */
  datatype Host = Host(parse: string -> Option<real>, math: MathLib)

  /** The guarded block: `nums = [float(a) for a in args]`, then
      `func(*nums)`, then `_format_number(result)`. */
  function Execute(entry: Entry, args: seq<string>, host: Host): (r: Result<Display, ErrorKind>)
    requires entry.arity == entry.func.Params() && |args| == entry.arity
    ensures (exists i :: 0 <= i < |args| && host.parse(args[i]).None?) ==> r == Failure(ValueError)
    ensures r.Failure? && r.error != ValueError ==>
      forall i :: 0 <= i < |args| ==> host.parse(args[i]).Some?
    ensures entry.func.IsPrimitive() && r.Failure? && r.error != ValueError ==>
      entry.func == DivideFn && host.parse(args[1]).value == 0.0 && r.error == ZeroDivisionError
    ensures (forall i :: 0 <= i < |args| ==> host.parse(args[i]).Some?) ==>
      var v := Evaluate(entry.func, seq(|args|, i requires 0 <= i < |args| => host.parse(args[i]).value), host.math);
      && (v.Success? ==> r == Success(FormatNumber(v.value)))
      && (v.Failure? ==> r == Failure(v.error))
  {
    match ParseAll(args, host.parse)
    case None => Failure(ValueError)
    case Some(nums) =>
      assert nums == seq(|args|, i requires 0 <= i < |args| => host.parse(args[i]).value);
      match Evaluate(entry.func, nums, host.math)
      case Failure(e) => Failure(e)
      case Success(v) => Success(FormatNumber(v))
  }

  /** Dividing by a zero that parsed fine is reported as ZeroDivisionError;
      any other parsed divisor prints the quotient. */
  lemma DivideByZeroCaught(args: seq<string>, host: Host)
    requires |args| == 2
    requires host.parse(args[0]).Some? && host.parse(args[1]).Some?
    ensures host.parse(args[1]).value == 0.0 ==> Execute(Entry(DivideFn, 2), args, host) == Failure(ZeroDivisionError)
    ensures host.parse(args[1]).value != 0.0 ==>
      var r := Execute(Entry(DivideFn, 2), args, host);
      r.Success? && DisplayValue(r.value) * host.parse(args[1]).value == host.parse(args[0]).value
  {
  }

  /** A dispatched `add`, `subtract` or `multiply` whose two tokens parse
      prints the sum, difference or product of the parsed numbers. */
  lemma PrimitiveComputes(entry: Entry, args: seq<string>, host: Host)
    requires entry.func.IsPrimitive()
    requires entry.arity == entry.func.Params() && |args| == entry.arity
    requires host.parse(args[0]).Some? && host.parse(args[1]).Some?
    ensures
      var a, b := host.parse(args[0]).value, host.parse(args[1]).value;
      && (entry.func == AddFn ==> Execute(entry, args, host) == Success(FormatNumber(Add(a, b))))
      && (entry.func == SubtractFn ==> Execute(entry, args, host) == Success(FormatNumber(Subtract(a, b))))
      && (entry.func == MultiplyFn ==> Execute(entry, args, host) == Success(FormatNumber(Multiply(a, b))))
  {
    var nums := seq(|args|, i requires 0 <= i < |args| => host.parse(args[i]).value);
    assert nums == [host.parse(args[0]).value, host.parse(args[1]).value];
  }

  // ---------------------------------------------------------------------------
  // What gets printed

  /** One thing the loop writes to standard output. */
  datatype Event =
    | Banner
    | Prompt
    | Farewell
    | HelpText
    | UnknownNotice(cmd: string)
    | ArityNotice(cmd: string, expected: nat, got: nat)
    | Value(d: Display)
    | ErrorNotice(kind: ErrorKind)

  /** The `except` clauses: each kind of raised error becomes one line. */
  function ErrorText(kind: ErrorKind): (t: string)
    ensures |t| >= 7 && t[..7] == "Error: "
    ensures kind.OtherError? ==> t[7..] == kind.message
  {
    match kind
    case ValueError => "Error: could not parse number(s)."
    case ZeroDivisionError => "Error: division by zero."
    case OverflowError => "Error: numerical result out of range."
    case OtherError(m) => "Error: " + m
  }

  /** The three named error kinds print three different messages, and a
      generic error can only look like one of them if its own text says so. */
  lemma ErrorTextDistinct(a: ErrorKind, b: ErrorKind)
    requires a != b
    requires !a.OtherError? || a.message !in {"could not parse number(s).", "division by zero.", "numerical result out of range."}
    requires !b.OtherError? || b.message !in {"could not parse number(s).", "division by zero.", "numerical result out of range."}
    ensures ErrorText(a) != ErrorText(b)
  {
    if a.OtherError? && b.OtherError? {
      assert ErrorText(a)[7..] != ErrorText(b)[7..];
    }
  }

  /** A math-domain failure (`sqrt -1`, `log 0`) raises ValueError, so it
      is reported with the very message of a token that is not a number. */
  lemma DomainErrorReadsAsParseError(entry: Entry, args: seq<string>, host: Host)
    requires entry.arity == entry.func.Params() && |args| == entry.arity
    requires !entry.func.IsPrimitive()
    requires forall i :: 0 <= i < |args| ==> host.parse(args[i]).Some?
    requires host.math(entry.func, seq(|args|, i requires 0 <= i < |args| => host.parse(args[i]).value)) == Failure(ValueError)
    ensures Execute(entry, args, host) == Failure(ValueError)
    ensures ErrorText(Execute(entry, args, host).error) == "Error: could not parse number(s)."
  {
    var nums := ParseAll(args, host.parse).value;
    assert nums == seq(|args|, i requires 0 <= i < |args| => host.parse(args[i]).value);
  }

  /** A dispatch whose callable can be applied to its argument count. */
  predicate Dispatchable(o: Outcome) {
    o.Dispatch? ==> o.entry.arity == o.entry.func.Params() && |o.args| == o.entry.arity
  }

  /** Every classified line can be reacted to. */
  lemma ClassifyDispatchable(raw: string)
    ensures Dispatchable(Classify(raw))
  {
  }

  /** The line printed for each outcome of a read line (before the next prompt). */
  function React(o: Outcome, host: Host): (r: seq<Event>)
    requires Dispatchable(o)
    ensures r == [] <==> o.Skip? || o.Exit?
    ensures |r| <= 1
    ensures Prompt !in r && Farewell !in r && Banner !in r
    ensures o.Dispatch? ==> r[0].Value? || r[0].ErrorNotice?
    ensures o.Help? ==> r == [HelpText]
    ensures o.UnknownCommand? ==> r == [UnknownNotice(o.cmd)]
    ensures o.ArityMismatch? ==> r == [ArityNotice(o.cmd, o.expected, o.got)]
    ensures o.Dispatch? && Execute(o.entry, o.args, host).Success? ==>
      r == [Value(Execute(o.entry, o.args, host).value)]
    ensures o.Dispatch? && Execute(o.entry, o.args, host).Failure? ==>
      r == [ErrorNotice(Execute(o.entry, o.args, host).error)]
  {
    match o
    case Skip => []
    case Exit => []
    case Help => [HelpText]
    case UnknownCommand(c) => [UnknownNotice(c)]
    case ArityMismatch(c, a, g) => [ArityNotice(c, a, g)]
    case Dispatch(_, e, args) =>
      match Execute(e, args, host)
      case Success(d) => [Value(d)]
      case Failure(k) => [ErrorNotice(k)]
  }

  /** Only a dispatched command parses or evaluates anything: every other
      outcome prints the same whatever `float()` and `math` would do. */
  lemma NothingEvaluatedBeforeDispatch(o: Outcome, h1: Host, h2: Host)
    requires !o.Dispatch?
    ensures React(o, h1) == React(o, h2)
  {
  }

  /** A dispatched division whose divisor parses to zero prints the
      division-by-zero message. */
  lemma ReactDivideByZero(o: Outcome, host: Host)
    requires o.Dispatch? && Dispatchable(o)
    requires o.entry.func == DivideFn
    requires forall i :: 0 <= i < |o.args| ==> host.parse(o.args[i]).Some?
    requires host.parse(o.args[1]).value == 0.0
    ensures React(o, host) == [ErrorNotice(ZeroDivisionError)]
  {
    assert o.entry == Entry(DivideFn, 2);
    DivideByZeroCaught(o.args, host);
  }

  /** A known keyword followed by exactly as many tokens as its arity
      dispatches to its table entry with those tokens. */
  lemma LookupDispatches(parts: seq<string>)
    requires |parts| > 0 && Lower(parts[0]) in Table
    requires |parts| - 1 == Table[Lower(parts[0])].arity
    ensures Lookup(parts) == Dispatch(Lower(parts[0]), Table[Lower(parts[0])], parts[1..])
  {
  }

  /** The fixed texts of the three named `except` clauses. */
  lemma ErrorMessages()
    ensures Render(ErrorNotice(ValueError)) == Some("Error: could not parse number(s).\n")
    ensures Render(ErrorNotice(ZeroDivisionError)) == Some("Error: division by zero.\n")
    ensures Render(ErrorNotice(OverflowError)) == Some("Error: numerical result out of range.\n")
  {
    assert ErrorText(ValueError) + "\n" == "Error: could not parse number(s).\n";
    assert ErrorText(ZeroDivisionError) + "\n" == "Error: division by zero.\n";
    assert ErrorText(OverflowError) + "\n" == "Error: numerical result out of range.\n";
  }

  /** `divide x 0` (or `div x 0`, in any letter case) with a number `x`
      dispatches to `divide`, which raises ZeroDivisionError, and the loop
      prints "Error: division by zero.". */
  lemma DivideTokensByZero(parts: seq<string>, host: Host)
    requires |parts| == 3 && (Lower(parts[0]) == "divide" || Lower(parts[0]) == "div")
    requires host.parse(parts[1]).Some? && host.parse(parts[2]) == Some(0.0)
    ensures Lookup(parts).Dispatch? && Lookup(parts).entry.func == DivideFn
    ensures React(Lookup(parts), host) == [ErrorNotice(ZeroDivisionError)]
    ensures Render(ErrorNotice(ZeroDivisionError)) == Some("Error: division by zero.\n")
  {
    TableBindings();
    LookupDispatches(parts);
    var o := Lookup(parts);
    assert o.args == [parts[1], parts[2]];
    ReactDivideByZero(o, host);
    ErrorMessages();
  }

  /** `add x y` (in any letter case) with two numbers prints their sum. */
  lemma AddTokens(parts: seq<string>, host: Host)
    requires |parts| == 3 && Lower(parts[0]) == "add"
    requires host.parse(parts[1]).Some? && host.parse(parts[2]).Some?
    ensures React(Lookup(parts), host) ==
      [Value(FormatNumber(Add(host.parse(parts[1]).value, host.parse(parts[2]).value)))]
  {
    TableBindings();
    LookupDispatches(parts);
    var o := Lookup(parts);
    assert o.args == [parts[1], parts[2]];
    PrimitiveComputes(o.entry, o.args, host);
  }

  /** `pow x y` (in any letter case) whose result `math.pow` cannot
      represent raises OverflowError, and the loop prints
      "Error: numerical result out of range.". */
  lemma PowOverflowTokens(parts: seq<string>, host: Host)
    requires |parts| == 3 && Lower(parts[0]) == "pow"
    requires host.parse(parts[1]).Some? && host.parse(parts[2]).Some?
    requires host.math(MathPow, [host.parse(parts[1]).value, host.parse(parts[2]).value]) == Failure(OverflowError)
    ensures React(Lookup(parts), host) == [ErrorNotice(OverflowError)]
    ensures Render(ErrorNotice(OverflowError)) == Some("Error: numerical result out of range.\n")
  {
    TableBindings();
    LookupDispatches(parts);
    var o := Lookup(parts);
    var args := [parts[1], parts[2]];
    assert o == Dispatch("pow", Entry(MathPow, 2), args);
    var nums := seq(|args|, i requires 0 <= i < |args| => host.parse(args[i]).value);
    assert nums == [host.parse(parts[1]).value, host.parse(parts[2]).value];
    assert Execute(Entry(MathPow, 2), args, host) == Failure(OverflowError);
    ErrorMessages();
  }

  const HelpMessage: string :=
    "Enter a command and numbers, e.g. 'add 2 3' or 'sin 0.5'. Type 'help' to see this message again, or 'exit' to quit."

  /** The exact characters an event writes, `print` adding the newline; a
      non-integral float is shown by its `repr`, which is not modelled. */
  function Render(e: Event): (r: Option<string>)
    ensures r.None? <==> e.Value? && e.d.Fraction?
    ensures r.Some? && e != Prompt ==> |r.value| > 0 && r.value[|r.value| - 1] == '\n'
    ensures e == Prompt ==> r.Some? && '\n' !in r.value
  {
    match e
    case Banner => Some("Simple calculator. Type 'help' for instructions, 'exit' to quit.\n")
    case Prompt => Some("calc> ")
    case Farewell => Some("\nExiting.\n")
    case HelpText => Some(HelpMessage + "\n")
    case UnknownNotice(c) => Some("Unknown command: " + c + ". Type 'help' for usage.\n")
    case ArityNotice(c, a, g) =>
      Some(c + " expects " + NatToString(a) + " argument(s); got " + NatToString(g) + "\n")
    case Value(Whole(n)) => Some(IntToString(n) + "\n")
    case Value(Fraction(_)) => None
    case ErrorNotice(k) => Some(ErrorText(k) + "\n")
  }

  /** The text of every printed line that carries data: the prompt, the
      farewell, the help text, both notices with their command name and
      counts, and an integral value as `str()` of the integer. */
  lemma RenderTexts(c: string, a: nat, g: nat, n: int)
    ensures Render(Banner) == Some("Simple calculator. Type 'help' for instructions, 'exit' to quit.\n")
    ensures Render(Prompt) == Some("calc> ")
    ensures Render(Farewell) == Some("\nExiting.\n")
    ensures Render(HelpText) == Some(HelpMessage + "\n")
    ensures Render(UnknownNotice(c)) == Some("Unknown command: " + c + ". Type 'help' for usage.\n")
    ensures Render(ArityNotice(c, a, g)) ==
      Some(c + " expects " + NatToString(a) + " argument(s); got " + NatToString(g) + "\n")
    ensures Render(Value(Whole(n))) == Some(IntToString(n) + "\n")
  {
  }

  /** `add 2 3` prints `5`, given a `float()` that reads "2" and "3" as
      the numbers they denote. */
  lemma AddTwoThree(host: Host)
    requires host.parse("2") == Some(2.0) && host.parse("3") == Some(3.0)
    ensures React(Lookup(["add", "2", "3"]), host) == [Value(Whole(5))]
    ensures Render(Value(Whole(5))) == Some("5\n")
  {
    var parts := ["add", "2", "3"];
    SmallWord("add");
    AddTokens(parts, host);
    assert FormatNumber(Add(2.0, 3.0)) == Whole(5);
    assert NatToString(5) == "5";
    assert IntToString(5) + "\n" == "5\n";
  }

  /** Two integral results print alike only when they are equal. */
  lemma RenderWholeInjective(m: int, n: int)
    requires Render(Value(Whole(m))) == Render(Value(Whole(n)))
    ensures m == n
  {
    var a := IntToString(m);
    var b := IntToString(n);
    assert (a + "\n")[..|a|] == a;
    assert |a| == |b|;
    assert (b + "\n")[..|b|] == b;
    IntToStringInjective(m, n);
  }
}

=== FILE: operations.dfy ===
/** The arithmetic primitives of the calculator, its keyword table, and the
    evaluation of one command once its arguments are parsed. Floating-point
    numbers are modelled as exact reals. */
module Operations {
  import opened Wrap
  import opened PyStr

  /** The exception classes the calculator loop tells apart. `OtherError`
      carries the text `str(e)` of any other exception. */
  datatype ErrorKind = ValueError | ZeroDivisionError | OverflowError | OtherError(message: string)

  // ---------------------------------------------------------------------------
  // The four primitives

  function Add(a: real, b: real): real { a + b }

  function Subtract(a: real, b: real): real { a - b }

  function Multiply(a: real, b: real): real { a * b }

  /** `a / b`, raising ZeroDivisionError for a zero divisor; otherwise the
      unique quotient. */
  function Divide(a: real, b: real): (r: Result<real, ErrorKind>)
    ensures r.Success? <==> b != 0.0
    ensures r.Success? ==> r.value * b == a
    ensures r.Failure? ==> r.error == ZeroDivisionError
  {
    if b == 0.0 then Failure(ZeroDivisionError) else Success(a / b)
  }

  /** Each primitive undoes its partner. */
  lemma PrimitivesInvert(a: real, b: real)
    ensures Subtract(Add(a, b), b) == a
    ensures Add(Subtract(a, b), b) == a
    ensures b != 0.0 ==> Divide(Multiply(a, b), b) == Success(a)
    ensures b != 0.0 ==> Divide(a, b).Success? && Multiply(Divide(a, b).value, b) == a
  {
    if b != 0.0 {
      var q := Divide(Multiply(a, b), b).value;
      assert q * b == a * b;
      assert (q - a) * b == 0.0;
      assert q - a == 0.0;
    }
  }

  // ---------------------------------------------------------------------------
  // The keyword table

  /** The callable a keyword is bound to: one of the four primitives or a
      function of Python's `math` module. */
  datatype Func =
    | AddFn | SubtractFn | MultiplyFn | DivideFn
    | MathSin | MathCos | MathTan | MathLog | MathLog10 | MathSqrt | MathPow
  {
    predicate IsPrimitive() {
      AddFn? || SubtractFn? || MultiplyFn? || DivideFn?
    }

    /** The number of arguments the loop passes to the callable. (`math.log`
        also takes an optional base, which the loop never passes.) */
    function Params(): nat {
      if IsPrimitive() || MathPow? then 2 else 1
    }
  }

  /** One row of the table: the callable and the number of arguments the
      loop demands before calling it. */
  datatype Entry = Entry(func: Func, arity: nat)

  const Table: map<string, Entry> := map[
    "add" := Entry(AddFn, 2),
    "subtract" := Entry(SubtractFn, 2),
    "sub" := Entry(SubtractFn, 2),
    "multiply" := Entry(MultiplyFn, 2),
    "mul" := Entry(MultiplyFn, 2),
    "divide" := Entry(DivideFn, 2),
    "div" := Entry(DivideFn, 2),
    "sin" := Entry(MathSin, 1),
    "cos" := Entry(MathCos, 1),
    "tan" := Entry(MathTan, 1),
    "log" := Entry(MathLog, 1),
    "log10" := Entry(MathLog10, 1),
    "sqrt" := Entry(MathSqrt, 1),
    "pow" := Entry(MathPow, 2)
  ]

  /** The keywords, the aliases and the arities of the table. */
  lemma TableContents()
    ensures Table.Keys == {"add", "subtract", "sub", "multiply", "mul", "divide", "div",
                           "sin", "cos", "tan", "log", "log10", "sqrt", "pow"}
    ensures Table["sub"] == Table["subtract"]
    ensures Table["mul"] == Table["multiply"]
    ensures Table["div"] == Table["divide"]
    ensures forall k :: k in {"add", "subtract", "sub", "multiply", "mul", "divide", "div", "pow"} ==> Table[k].arity == 2
    ensures forall k :: k in {"sin", "cos", "tan", "log", "log10", "sqrt"} ==> Table[k].arity == 1
  {
  }

  /** The callable each keyword is bound to. */
  lemma TableBindings()
    ensures "add" in Table && Table["add"] == Entry(AddFn, 2)
    ensures "subtract" in Table && Table["subtract"] == Entry(SubtractFn, 2)
    ensures "sub" in Table && Table["sub"] == Entry(SubtractFn, 2)
    ensures "multiply" in Table && Table["multiply"] == Entry(MultiplyFn, 2)
    ensures "mul" in Table && Table["mul"] == Entry(MultiplyFn, 2)
    ensures "divide" in Table && Table["divide"] == Entry(DivideFn, 2)
    ensures "div" in Table && Table["div"] == Entry(DivideFn, 2)
    ensures "sin" in Table && Table["sin"] == Entry(MathSin, 1)
    ensures "cos" in Table && Table["cos"] == Entry(MathCos, 1)
    ensures "tan" in Table && Table["tan"] == Entry(MathTan, 1)
    ensures "log" in Table && Table["log"] == Entry(MathLog, 1)
    ensures "log10" in Table && Table["log10"] == Entry(MathLog10, 1)
    ensures "sqrt" in Table && Table["sqrt"] == Entry(MathSqrt, 1)
    ensures "pow" in Table && Table["pow"] == Entry(MathPow, 2)
  {
  }

  /** The two loop keywords are not table keywords. */
  lemma KeywordsNotInTable()
    ensures "exit" !in Table && "help" !in Table
  {
    TableContents();
  }

  /** Every registered arity is the number of arguments the loop passes to
      the callable it guards, so an arity-checked call never has too many or
      too few arguments; and every keyword is a lower-case word, so the
      lower-cased first token can reach each of them. */
  lemma TableWellFormed()
    ensures forall k :: k in Table ==> Table[k].arity == Table[k].func.Params()
    ensures forall k :: k in Table ==> IsWord(k) && Lower(k) == k
  {
    TableContents();
    TableBindings();
    forall k | k in Table
      ensures Table[k].arity == Table[k].func.Params()
      ensures IsWord(k) && Lower(k) == k
    {
      SmallWord(k);
    }
  }

  // ---------------------------------------------------------------------------
  // Evaluation

  /** What Python's `math` module would do for a call: a value, or the
      exception it raises (ValueError for a domain error such as `sqrt(-1)`
      or `log(0)`, OverflowError for a result out of range). */
  type MathLib = (Func, seq<real>) -> Result<real, ErrorKind>

  /** `func(*nums)`. The primitives are evaluated here and raise nothing
      but ZeroDivisionError; the math functions are delegated to `math`. */
  function Evaluate(f: Func, nums: seq<real>, math: MathLib): (r: Result<real, ErrorKind>)
    requires |nums| == f.Params()
    ensures f.IsPrimitive() && r.Failure? ==> f == DivideFn && nums[1] == 0.0 && r.error == ZeroDivisionError
    ensures f == DivideFn && nums[1] != 0.0 ==> r.Success? && r.value * nums[1] == nums[0]
    ensures f == AddFn ==> r == Success(Add(nums[0], nums[1]))
    ensures f == SubtractFn ==> r == Success(Subtract(nums[0], nums[1]))
    ensures f == MultiplyFn ==> r == Success(Multiply(nums[0], nums[1]))
    ensures f == DivideFn && nums[1] == 0.0 ==> r == Failure(ZeroDivisionError)
    ensures !f.IsPrimitive() ==> r == math(f, nums)
  {
    match f
    case AddFn => Success(Add(nums[0], nums[1]))
    case SubtractFn => Success(Subtract(nums[0], nums[1]))
    case MultiplyFn => Success(Multiply(nums[0], nums[1]))
    case DivideFn => Divide(nums[0], nums[1])
    case _ => math(f, nums)
  }

  /** `[float(a) for a in args]`, where `parse` stands for `float()` on one
      token: the list of values, or None as soon as one token fails. */
  function ParseAll(args: seq<string>, parse: string -> Option<real>): (r: Option<seq<real>>)
    ensures r.Some? <==> forall i :: 0 <= i < |args| ==> parse(args[i]).Some?
    ensures r.Some? ==> |r.value| == |args| && forall i :: 0 <= i < |args| ==> r.value[i] == parse(args[i]).value
    decreases |args|
  {
    if args == [] then Some([])
    else match parse(args[0])
      case None => None
      case Some(x) =>
        match ParseAll(args[1..], parse)
        case None => None
        case Some(xs) => Some([x] + xs)
  }

  // ---------------------------------------------------------------------------
  // Formatting a result

  /** How `print(_format_number(x))` shows a float: as an int when it has no
      fractional part, otherwise as the float itself. */
  datatype Display = Whole(n: int) | Fraction(x: real)

  predicate IsIntegral(x: real) {
    x == x.Floor as real
  }

  function DisplayValue(d: Display): real {
    match d
    case Whole(n) => n as real
    case Fraction(x) => x
  }

  function FormatNumber(x: real): (d: Display)
    ensures d.Whole? <==> IsIntegral(x)
    ensures DisplayValue(d) == x
  {
    if IsIntegral(x) then Whole(x.Floor) else Fraction(x)
  }
}

=== FILE: pystr.dfy ===
/** The parts of Python's `str` that the calculator loop relies on:
    `isspace`, `strip()`, `lower()`, `split()` with no separator, and `str(int)`. */
module PyStr {

  /** The characters for which Python's `str.isspace()` holds; `strip()` and
      `split()` with no argument use exactly this set. */
  predicate IsSpace(c: char) {
    || c == ' '
    || ('\t' <= c <= '\r')
    || ('\U{1C}' <= c <= '\U{1F}')
    || c == '\U{85}' || c == '\U{A0}' || c == '\U{1680}'
    || ('\U{2000}' <= c <= '\U{200A}')
    || c == '\U{2028}' || c == '\U{2029}' || c == '\U{202F}' || c == '\U{205F}'
    || c == '\U{3000}'
  }

  predicate AllSpace(s: string) {
    forall i :: 0 <= i < |s| ==> IsSpace(s[i])
  }

  predicate NoSpace(s: string) {
    forall i :: 0 <= i < |s| ==> !IsSpace(s[i])
  }

  /** A token as `split()` produces it: non-empty and free of whitespace. */
  predicate IsWord(s: string) {
    s != [] && NoSpace(s)
  }

  // ---------------------------------------------------------------------------
  // lower()

  /** Lower-casing of one character; only the ASCII letters are folded. */
  function LowerChar(c: char): char {
    if 'A' <= c <= 'Z' then (c as int - 'A' as int + 'a' as int) as char else c
  }

  function Lower(s: string): (r: string)
    ensures |r| == |s|
  {
    seq(|s|, i requires 0 <= i < |s| => LowerChar(s[i]))
  }

  /** `lower()` on ASCII: each capital becomes the small letter 32 code
      points above it, every other character is kept, no capital remains. */
  lemma LowerFoldsAscii(s: string)
    ensures |Lower(s)| == |s|
    ensures forall i :: 0 <= i < |s| && 'A' <= s[i] <= 'Z' ==> Lower(s)[i] as int == s[i] as int + 32
    ensures forall i :: 0 <= i < |s| && !('A' <= s[i] <= 'Z') ==> Lower(s)[i] == s[i]
    ensures forall i :: 0 <= i < |s| ==> !('A' <= Lower(s)[i] <= 'Z')
  {
  }

  /** A non-empty string of small letters and digits is a word that
      lower-casing leaves alone. */
  lemma SmallWord(s: string)
    requires s != []
    requires forall i :: 0 <= i < |s| ==> 'a' <= s[i] <= 'z' || '0' <= s[i] <= '9'
    ensures IsWord(s) && Lower(s) == s
  {
  }

  /** `lower()` applied to every string of a list. */
  function LowerAll(ss: seq<string>): (r: seq<string>)
    ensures |r| == |ss|
  {
    seq(|ss|, i requires 0 <= i < |ss| => Lower(ss[i]))
  }

  lemma LowerCharKeepsSpace(c: char)
    ensures IsSpace(LowerChar(c)) <==> IsSpace(c)
  {
  }

  /** Lower-casing twice is lower-casing once. */
  lemma LowerIdempotent(s: string)
    ensures Lower(Lower(s)) == Lower(s)
  {
  }

  lemma LowerDrop(s: string, i: nat)
    requires i <= |s|
    ensures Lower(s[i..]) == Lower(s)[i..]
  {
  }

  lemma LowerTake(s: string, i: nat)
    requires i <= |s|
    ensures Lower(s[..i]) == Lower(s)[..i]
  {
  }

  // ---------------------------------------------------------------------------
  // strip()

  /** `lstrip()`: drops the leading whitespace. */
  function TrimLeft(s: string): (r: string)
    ensures |r| <= |s| && r == s[|s| - |r|..]
    ensures AllSpace(s[..|s| - |r|])
    ensures r == [] || !IsSpace(r[0])
    decreases |s|
  {
    if s != [] && IsSpace(s[0]) then
      var r := TrimLeft(s[1..]);
      assert s[..|s| - |r|] == [s[0]] + s[1..][..|s| - 1 - |r|];
      r
    else s
  }

  /** `rstrip()`: drops the trailing whitespace. */
  function TrimRight(s: string): (r: string)
    ensures |r| <= |s| && r == s[..|r|]
    ensures AllSpace(s[|r|..])
    ensures r == [] || !IsSpace(r[|r| - 1])
    decreases |s|
  {
    if s != [] && IsSpace(s[|s| - 1]) then
      var r := TrimRight(s[..|s| - 1]);
      assert s[|r|..] == s[..|s| - 1][|r|..] + [s[|s| - 1]];
      r
    else s
  }

  /** `strip()`: the string without its leading and trailing whitespace. */
  function Strip(s: string): (r: string)
    ensures r == [] <==> AllSpace(s)
    ensures r != [] ==> !IsSpace(r[0]) && !IsSpace(r[|r| - 1])
  {
    var t := TrimLeft(s);
    assert s == s[..|s| - |t|] + t;
    TrimRight(t)
  }

  /** A leading run of whitespace is all `lstrip()` removes. */
  lemma {:induction false} TrimLeftSpaces(lead: string, core: string)
    requires AllSpace(lead)
    requires core == [] || !IsSpace(core[0])
    ensures TrimLeft(lead + core) == core
    decreases |lead|
  {
    if lead != [] {
      assert (lead + core)[1..] == lead[1..] + core;
      TrimLeftSpaces(lead[1..], core);
    }
  }

  /** A trailing run of whitespace is all `rstrip()` removes. */
  lemma {:induction false} TrimRightSpaces(core: string, trail: string)
    requires AllSpace(trail)
    requires core == [] || !IsSpace(core[|core| - 1])
    ensures TrimRight(core + trail) == core
    decreases |trail|
  {
    if trail != [] {
      var s := core + trail;
      assert s[..|s| - 1] == core + trail[..|trail| - 1];
      TrimRightSpaces(core, trail[..|trail| - 1]);
    }
  }

  /** `strip()` is pinned down by its shape: whatever whitespace surrounds a
      core that neither starts nor ends with whitespace is removed, and
      nothing else is. */
  lemma StripExact(lead: string, core: string, trail: string)
    requires AllSpace(lead) && AllSpace(trail)
    requires core == [] || (!IsSpace(core[0]) && !IsSpace(core[|core| - 1]))
    ensures Strip(lead + core + trail) == core
  {
    if core == [] {
      assert AllSpace(lead + core + trail);
    } else {
      assert lead + core + trail == lead + (core + trail);
      TrimLeftSpaces(lead, core + trail);
      TrimRightSpaces(core, trail);
    }
  }

  /** Stripping commutes with lower-casing, because lower-casing keeps every
      whitespace character and no other character becomes one. */
  lemma {:induction false} TrimLeftLower(s: string)
    ensures TrimLeft(Lower(s)) == Lower(TrimLeft(s))
    decreases |s|
  {
    if s == [] {
      assert Lower(s) == s;
    } else {
      var l := Lower(s);
      assert l[0] == LowerChar(s[0]);
      LowerCharKeepsSpace(s[0]);
      if IsSpace(s[0]) {
        LowerDrop(s, 1);
        assert TrimLeft(l) == TrimLeft(l[1..]);
        TrimLeftLower(s[1..]);
        assert TrimLeft(s) == TrimLeft(s[1..]);
      } else {
        assert TrimLeft(l) == l;
        assert TrimLeft(s) == s;
      }
    }
  }

  lemma {:induction false} TrimRightLower(s: string)
    ensures TrimRight(Lower(s)) == Lower(TrimRight(s))
    decreases |s|
  {
    if s == [] {
      assert Lower(s) == s;
    } else {
      var n := |s| - 1;
      var l := Lower(s);
      assert l[n] == LowerChar(s[n]);
      LowerCharKeepsSpace(s[n]);
      if IsSpace(s[n]) {
        LowerTake(s, n);
        assert TrimRight(l) == TrimRight(l[..n]);
        TrimRightLower(s[..n]);
        assert TrimRight(s) == TrimRight(s[..n]);
      } else {
        assert TrimRight(l) == l;
        assert TrimRight(s) == s;
      }
    }
  }

  lemma StripLower(s: string)
    ensures Strip(Lower(s)) == Lower(Strip(s))
  {
    TrimLeftLower(s);
    TrimRightLower(TrimLeft(s));
  }

  // ---------------------------------------------------------------------------
  // split()

  /** Length of the leading run of non-whitespace characters. */
  function WordLength(s: string): (n: nat)
    ensures n <= |s|
    ensures NoSpace(s[..n])
    ensures n == |s| || IsSpace(s[n])
    decreases |s|
  {
    if s == [] || IsSpace(s[0]) then 0
    else
      var n := 1 + WordLength(s[1..]);
      assert s[..n] == [s[0]] + s[1..][..n - 1];
      n
  }

  /** `split()` with no separator: the maximal runs of non-whitespace
      characters, in order; leading, trailing and repeated whitespace yield
      no empty tokens. */
  function Split(s: string): (r: seq<string>)
    ensures forall k :: 0 <= k < |r| ==> IsWord(r[k])
    ensures r == [] <==> AllSpace(s)
    decreases |s|
  {
    if s == [] then []
    else if IsSpace(s[0]) then
      var r := Split(s[1..]);
      assert AllSpace(s[1..]) ==> AllSpace(s);
      r
    else
      var n := WordLength(s);
      [s[..n]] + Split(s[n..])
  }

  /** Words laid out with their own separator in each gap: `ws[0] + seps[0]
      + ws[1] + … + ws[n-1]`. */
  function Weave(ws: seq<string>, seps: seq<string>): string
    requires |seps| == if ws == [] then 0 else |ws| - 1
    decreases |ws|
  {
    if ws == [] then []
    else if |ws| == 1 then ws[0]
    else ws[0] + seps[0] + Weave(ws[1..], seps[1..])
  }

  /** Whitespace in front of a string does not change how it splits. */
  lemma {:induction false} SplitSkipsSpaces(lead: string, s: string)
    requires AllSpace(lead)
    ensures Split(lead + s) == Split(s)
    decreases |lead|
  {
    if lead != [] {
      assert (lead + s)[0] == lead[0];
      assert (lead + s)[1..] == lead[1..] + s;
      SplitSkipsSpaces(lead[1..], s);
    } else {
      assert lead + s == s;
    }
  }

  /** A word followed by whitespace or by nothing is split off whole. */
  lemma SplitTakesWord(w: string, s: string)
    requires IsWord(w)
    requires s == [] || IsSpace(s[0])
    ensures Split(w + s) == [w] + Split(s)
  {
    var t := w + s;
    assert WordLength(t) == |w| by {
      WordLengthOf(w, s);
    }
    assert t[..|w|] == w && t[|w|..] == s;
  }

  lemma {:induction false} WordLengthOf(w: string, s: string)
    requires NoSpace(w)
    requires s == [] || IsSpace(s[0])
    ensures WordLength(w + s) == |w|
    decreases |w|
  {
    if w != [] {
      assert (w + s)[1..] == w[1..] + s;
      WordLengthOf(w[1..], s);
    } else {
      assert w + s == s;
    }
  }

  /** Round trip: words laid out with any non-empty run of whitespace in
      each gap, padded by any whitespace, split back into the same words. */
  lemma {:induction false} SplitWeave(ws: seq<string>, seps: seq<string>, lead: string, trail: string)
    requires forall k :: 0 <= k < |ws| ==> IsWord(ws[k])
    requires |seps| == if ws == [] then 0 else |ws| - 1
    requires forall k :: 0 <= k < |seps| ==> seps[k] != [] && AllSpace(seps[k])
    requires AllSpace(lead) && AllSpace(trail)
    ensures Split(lead + Weave(ws, seps) + trail) == ws
    decreases |ws|
  {
    if ws == [] {
      assert lead + Weave(ws, seps) + trail == lead + trail;
      assert AllSpace(lead + trail);
    } else if |ws| == 1 {
      assert lead + Weave(ws, seps) + trail == lead + (ws[0] + trail);
      assert Split(trail) == [];
      SplitWordAfterSpaces(lead, ws[0], trail);
    } else {
      var sep := seps[0];
      assert sep != [] && AllSpace(sep);
      var tail := Weave(ws[1..], seps[1..]);
      var rest := sep + tail + trail;
      assert Split(rest) == ws[1..] by {
        assert forall k :: 0 <= k < |ws[1..]| ==> IsWord(ws[1..][k]);
        assert forall k :: 0 <= k < |seps[1..]| ==> seps[1..][k] != [] && AllSpace(seps[1..][k]);
        SplitWeave(ws[1..], seps[1..], sep, trail);
      }
      assert lead + Weave(ws, seps) + trail == lead + (ws[0] + rest) by {
        Associate(lead, ws[0], sep, tail, trail);
      }
      assert rest[0] == sep[0];
      SplitWordAfterSpaces(lead, ws[0], rest);
      assert [ws[0]] + ws[1..] == ws;
    }
  }

  /** Whitespace, then a word, then whitespace or nothing: the word is the
      first token. */
  lemma SplitWordAfterSpaces(lead: string, w: string, rest: string)
    requires AllSpace(lead) && IsWord(w)
    requires rest == [] || IsSpace(rest[0])
    ensures Split(lead + (w + rest)) == [w] + Split(rest)
  {
    SplitSkipsSpaces(lead, w + rest);
    SplitTakesWord(w, rest);
  }

  lemma Associate(a: string, b: string, c: string, d: string, e: string)
    ensures a + (b + c + d) + e == a + (b + (c + d + e))
  {
  }

  /** A string with no whitespace in it splits into itself alone. */
  lemma SplitOneWord(w: string)
    requires IsWord(w)
    ensures Split(w) == [w]
  {
    SplitTakesWord(w, []);
    assert w + [] == w;
  }

  /** Splitting the stripped line gives the same tokens as splitting the raw line. */
  lemma SplitStrip(s: string)
    ensures Split(Strip(s)) == Split(s)
  {
    SplitTrimLeft(s);
    SplitTrimRight(TrimLeft(s));
  }

  lemma SplitTrimLeft(s: string)
    ensures Split(TrimLeft(s)) == Split(s)
  {
    var t := TrimLeft(s);
    var lead := s[..|s| - |t|];
    assert s == lead + t;
    SplitSkipsSpaces(lead, t);
  }

  lemma SplitTrimRight(t: string)
    ensures Split(TrimRight(t)) == Split(t)
  {
    var core := TrimRight(t);
    var trail := t[|core|..];
    assert t == core + trail;
    SplitTrailing(core, trail);
  }

  /** Trailing whitespace does not change how a string splits. */
  lemma {:induction false} SplitTrailing(s: string, trail: string)
    requires AllSpace(trail)
    ensures Split(s + trail) == Split(s)
    decreases |s|
  {
    if s == [] {
      assert s + trail == trail;
      assert AllSpace(trail);
    } else if IsSpace(s[0]) {
      assert (s + trail)[1..] == s[1..] + trail;
      SplitTrailing(s[1..], trail);
    } else {
      var n := WordLength(s);
      WordLengthExtend(s, trail);
      assert (s + trail)[..n] == s[..n];
      assert (s + trail)[n..] == s[n..] + trail;
      SplitTrailing(s[n..], trail);
    }
  }

  lemma {:induction false} WordLengthExtend(s: string, trail: string)
    requires AllSpace(trail)
    ensures WordLength(s + trail) == WordLength(s)
    decreases |s|
  {
    if s == [] {
      assert s + trail == trail;
    } else if !IsSpace(s[0]) {
      assert (s + trail)[1..] == s[1..] + trail;
      WordLengthExtend(s[1..], trail);
    }
  }

  /** Splitting commutes with lower-casing: the tokens of the lower-cased
      line are the lower-cased tokens of the line. */
  lemma {:induction false} SplitLower(s: string)
    ensures Split(Lower(s)) == LowerAll(Split(s))
    decreases |s|
  {
    if s == [] {
      assert Lower(s) == s;
    } else {
      var l := Lower(s);
      assert l[0] == LowerChar(s[0]);
      LowerCharKeepsSpace(s[0]);
      if IsSpace(s[0]) {
        assert Split(l) == Split(l[1..]);
        LowerDrop(s, 1);
        SplitLower(s[1..]);
      } else {
        var n := WordLength(s);
        assert WordLength(l) == n by {
          WordLengthLower(s);
        }
        assert Split(l) == [l[..n]] + Split(l[n..]);
        assert l[..n] == Lower(s[..n]) by {
          LowerTake(s, n);
        }
        assert Split(l[n..]) == LowerAll(Split(s[n..])) by {
          LowerDrop(s, n);
          SplitLower(s[n..]);
        }
        LowerAllCons(s[..n], Split(s[n..]));
      }
    }
  }

  lemma LowerAllCons(w: string, ws: seq<string>)
    ensures LowerAll([w] + ws) == [Lower(w)] + LowerAll(ws)
  {
  }

  lemma {:induction false} WordLengthLower(s: string)
    ensures WordLength(Lower(s)) == WordLength(s)
    decreases |s|
  {
    if s != [] {
      var l := Lower(s);
      assert l[0] == LowerChar(s[0]);
      LowerCharKeepsSpace(s[0]);
      if !IsSpace(s[0]) {
        LowerDrop(s, 1);
        WordLengthLower(s[1..]);
      }
    }
  }

  // ---------------------------------------------------------------------------
  // str(int)

  function DigitChar(d: nat): char
    requires d < 10
  {
    ('0' as int + d) as char
  }

  function DigitValue(c: char): int {
    c as int - '0' as int
  }

  predicate IsDigit(c: char) {
    '0' <= c <= '9'
  }

  /** `str(n)` for a non-negative integer: its decimal digits, no leading zero. */
  function NatToString(n: nat): (r: string)
    ensures r != [] && forall i :: 0 <= i < |r| ==> IsDigit(r[i])
    ensures |r| > 1 ==> r[0] != '0'
    decreases n
  {
    if n < 10 then [DigitChar(n)] else NatToString(n / 10) + [DigitChar(n % 10)]
  }

  /** The number a string of decimal digits denotes. */
  function DecimalValue(s: string): int
  {
    if s == [] then 0 else 10 * DecimalValue(s[..|s| - 1]) + DigitValue(s[|s| - 1])
  }

  /** `str(n)` for any integer, with a leading minus sign when negative. */
  function IntToString(n: int): (r: string)
    ensures r != []
    ensures n < 0 <==> r[0] == '-'
  {
    if n < 0 then "-" + NatToString(-n) else NatToString(n)
  }

  /** Reading the digits of `str(n)` back gives `n`. */
  lemma {:induction false} NatToStringValue(n: nat)
    ensures DecimalValue(NatToString(n)) == n
    decreases n
  {
    if n >= 10 {
      var s := NatToString(n);
      assert s[..|s| - 1] == NatToString(n / 10);
      NatToStringValue(n / 10);
    }
  }

  /** Different integers print differently. */
  lemma IntToStringInjective(m: int, n: int)
    requires IntToString(m) == IntToString(n)
    ensures m == n
  {
    if m < 0 {
      assert IntToString(m)[1..] == NatToString(-m);
      assert IntToString(n)[1..] == NatToString(-n);
      NatToStringValue(-m);
      NatToStringValue(-n);
    } else {
      NatToStringValue(m);
      NatToStringValue(n);
    }
  }
}

=== FILE: session.dfy ===
/** The read loop of `calculator_interface` as a two-state machine folded
    over the sequence of reads, and the same loop written as a `while`. */
module Session {
  import opened PyStr
  import opened Operations
  import opened Commands

  /** One call of `input('calc> ')`: a line, or a KeyboardInterrupt.
      End of input is the end of the sequence of reads. */
  datatype Read = Line(text: string) | Interrupt

  /** What the loop body makes of one read, before reacting to it. */
  datatype ClassifiedRead = Classified(outcome: Outcome) | Interrupted

  function ClassifyRead(r: Read): (p: ClassifiedRead)
    ensures p.Interrupted? <==> r.Interrupt?
    ensures r.Line? ==> p == Classified(Classify(r.text))
  {
    match r
    case Line(s) => Classified(Classify(s))
    case Interrupt => Interrupted
  }

  function ClassifyAll(input: seq<Read>): (ps: seq<ClassifiedRead>)
    ensures |ps| == |input|
  {
    seq(|input|, i requires 0 <= i < |input| => ClassifyRead(input[i]))
  }

  datatype Mode = Running | Terminated

  /** A read after which the loop is left: an interrupt or an "exit" line. */
  predicate Stops(p: ClassifiedRead) {
    p.Interrupted? || p.outcome.Exit?
  }

  /** One iteration: show the prompt, take the read, react to it. */
  function Step(m: Mode, p: ClassifiedRead, host: Host): (res: (Mode, seq<Event>))
    requires p.Classified? ==> Dispatchable(p.outcome)
    ensures m == Terminated ==> res == (Terminated, [])
    ensures m == Running ==> (res.0 == Terminated <==> Stops(p))
    ensures m == Running ==> |res.1| >= 1 && res.1[0] == Prompt && Prompt !in res.1[1..]
    ensures m == Running && p == Classified(Skip) ==> res == (Running, [Prompt])
    ensures m == Running && Stops(p) ==> res.1 == if p.Interrupted? then [Prompt, Farewell] else [Prompt]
    ensures m == Running && p.Classified? ==> res.1 == [Prompt] + React(p.outcome, host)
    ensures Banner !in res.1
  {
    match m
    case Terminated => (Terminated, [])
    case Running =>
      match p
      case Interrupted => (Terminated, [Prompt, Farewell])
      case Classified(o) =>
        assert [Prompt] + [] == [Prompt];
        (if o.Exit? then Terminated else Running, [Prompt] + React(o, host))
  }

  /** Every classified read line satisfies what `React` needs. */
  predicate WellFormed(ps: seq<ClassifiedRead>) {
    forall i :: 0 <= i < |ps| ==> ps[i].Classified? ==> Dispatchable(ps[i].outcome)
  }

  lemma ClassifyAllWellFormed(input: seq<Read>)
    ensures WellFormed(ClassifyAll(input))
  {
    forall i | 0 <= i < |input| && input[i].Line?
      ensures Dispatchable(Classify(input[i].text))
    {
      ClassifyDispatchable(input[i].text);
    }
  }

  /** Everything written, and how many reads were taken. */
  datatype Transcript = Transcript(events: seq<Event>, taken: nat)

  /** The loop from mode `m` on: stops after the first stopping read, or
      prints the farewell when the input runs out. */
  function Loop(m: Mode, ps: seq<ClassifiedRead>, host: Host): (t: Transcript)
    requires WellFormed(ps)
    ensures t.taken <= |ps|
    ensures m == Terminated ==> t == Transcript([], 0)
    ensures m == Running ==> |t.events| > 0 && t.events[0] == Prompt
    ensures Banner !in t.events
    decreases |ps|
  {
    if m == Terminated then Transcript([], 0)
    else if ps == [] then Transcript([Prompt, Farewell], 0)
    else
      var next := Step(m, ps[0], host);
      var rest := Loop(next.0, ps[1..], host);
      Transcript(next.1 + rest.events, 1 + rest.taken)
  }

  /** The session over already-classified reads: the banner, then the loop. */
  function Replay(ps: seq<ClassifiedRead>, host: Host): (t: Transcript)
    requires WellFormed(ps)
    ensures t.taken <= |ps|
    ensures |t.events| >= 2 && t.events[0] == Banner && t.events[1] == Prompt
    ensures Banner !in t.events[1..]
  {
    var t := Loop(Running, ps, host);
    assert ([Banner] + t.events)[1..] == t.events;
    Transcript([Banner] + t.events, t.taken)
  }

  /** The whole session over the reads. */
  function Run(input: seq<Read>, host: Host): (t: Transcript)
    ensures t.taken <= |input|
    ensures |t.events| >= 2 && t.events[0] == Banner && t.events[1] == Prompt
  {
    ClassifyAllWellFormed(input);
    Replay(ClassifyAll(input), host)
  }

  /** The position of the first read that stops the loop, or the length of
      the input when none does. */
  function FirstStop(ps: seq<ClassifiedRead>): (k: nat)
    ensures k <= |ps|
    ensures forall j :: 0 <= j < k ==> !Stops(ps[j])
    ensures k < |ps| ==> Stops(ps[k])
    decreases |ps|
  {
    if ps == [] then 0
    else if Stops(ps[0]) then 0
    else 1 + FirstStop(ps[1..])
  }

  /** The loop reads exactly up to and including the first "exit" line or
      interrupt, and everything when there is none. */
  lemma {:induction false} TakenUpToFirstStop(ps: seq<ClassifiedRead>, host: Host)
    requires WellFormed(ps)
    ensures Loop(Running, ps, host).taken ==
      (if FirstStop(ps) < |ps| then FirstStop(ps) + 1 else |ps|)
    decreases |ps|
  {
    if ps != [] && !Stops(ps[0]) {
      TakenUpToFirstStop(ps[1..], host);
    }
  }

  /** Nothing after the first stopping read is ever looked at. */
  lemma {:induction false} InputAfterStopIgnored(ps: seq<ClassifiedRead>, rest: seq<ClassifiedRead>, host: Host)
    requires WellFormed(ps) && WellFormed(rest)
    requires FirstStop(ps) < |ps|
    ensures WellFormed(ps + rest)
    ensures Loop(Running, ps + rest, host) == Loop(Running, ps, host)
    decreases |ps|
  {
    var all := ps + rest;
    assert WellFormed(all) by {
      forall i | 0 <= i < |all|
        ensures all[i].Classified? ==> Dispatchable(all[i].outcome)
      {
        if i < |ps| { assert all[i] == ps[i]; } else { assert all[i] == rest[i - |ps|]; }
      }
    }
    assert all[0] == ps[0];
    if !Stops(ps[0]) {
      assert all[1..] == ps[1..] + rest;
      InputAfterStopIgnored(ps[1..], rest, host);
    }
  }

  /** The loop ends silently on "exit" (its prompt is the last thing
      written) and with the farewell on an interrupt or at end of input. */
  lemma {:induction false} LastEvent(ps: seq<ClassifiedRead>, host: Host)
    requires WellFormed(ps)
    ensures
      var ev := Loop(Running, ps, host).events;
      var k := FirstStop(ps);
      ev[|ev| - 1] == (if k < |ps| && ps[k].Classified? then Prompt else Farewell)
    decreases |ps|
  {
    var t := Loop(Running, ps, host);
    var k := FirstStop(ps);
    if ps != [] {
      var next := Step(Running, ps[0], host);
      var rest := Loop(next.0, ps[1..], host);
      assert t.events == next.1 + rest.events;
      if !Stops(ps[0]) {
        assert k == 1 + FirstStop(ps[1..]);
        assert k < |ps| ==> ps[k] == ps[1..][k - 1];
        LastEvent(ps[1..], host);
        assert t.events[|t.events| - 1] == rest.events[|rest.events| - 1];
      }
    }
  }

  /** One prompt is written per call of `input()`: one for each read taken,
      plus one for the read that meets the end of input. */
  lemma {:induction false} PromptPerRead(ps: seq<ClassifiedRead>, host: Host)
    requires WellFormed(ps)
    ensures
      var t := Loop(Running, ps, host);
      multiset(t.events)[Prompt] == t.taken + (if FirstStop(ps) == |ps| then 1 else 0)
    decreases |ps|
  {
    if ps != [] {
      var next := Step(Running, ps[0], host);
      assert next.1 == [Prompt] + next.1[1..];
      assert multiset(next.1)[Prompt] == 1;
      if !Stops(ps[0]) {
        PromptPerRead(ps[1..], host);
      }
    }
  }

  /** A blank line (empty after stripping) is read as `Classified(Skip)`. */
  lemma BlankLineSkipped(s: string)
    ensures ClassifyRead(Line(s)) == Classified(Skip) <==> AllSpace(s)
  {
  }

  /** A blank line writes nothing beyond its prompt and leaves the loop running. */
  lemma BlankLineOnlyPrompts(ps: seq<ClassifiedRead>, host: Host)
    requires WellFormed(ps)
    ensures WellFormed([Classified(Skip)] + ps)
    ensures
      var ev := Replay(ps, host).events;
      Replay([Classified(Skip)] + ps, host).events == ev[..1] + [Prompt] + ev[1..]
  {
    var all := [Classified(Skip)] + ps;
    assert WellFormed(all) by {
      forall i | 0 <= i < |all|
        ensures all[i].Classified? ==> Dispatchable(all[i].outcome)
      {
        if 0 < i { assert all[i] == ps[i - 1]; }
      }
    }
    assert all[0] == Classified(Skip);
    assert all[1..] == ps;
  }

  /** A line whose one token is `help` in any letter case prints the help
      text after its prompt, and the loop goes on. */
  lemma HelpLine(raw: string, host: Host)
    requires |Split(raw)| == 1 && Lower(Split(raw)[0]) == "help"
    ensures ClassifyRead(Line(raw)) == Classified(Help)
    ensures Step(Running, ClassifyRead(Line(raw)), host) == (Running, [Prompt, HelpText])
  {
    HelpIsWholeLine(raw);
    assert Classify(raw).Help?;
    assert [Prompt] + [HelpText] == [Prompt, HelpText];
  }

  /** A division by a zero that parsed fine prints the division-by-zero
      message and the loop goes on. */
  lemma DivisionByZeroContinues(o: Outcome, host: Host)
    requires o.Dispatch? && Dispatchable(o) && o.entry.func == DivideFn
    requires forall i :: 0 <= i < |o.args| ==> host.parse(o.args[i]).Some?
    requires host.parse(o.args[1]).value == 0.0
    ensures Step(Running, Classified(o), host) == (Running, [Prompt, ErrorNotice(ZeroDivisionError)])
  {
    assert React(o, host) == [ErrorNotice(ZeroDivisionError)] by {
      ReactDivideByZero(o, host);
    }
    assert [Prompt] + [ErrorNotice(ZeroDivisionError)] == [Prompt, ErrorNotice(ZeroDivisionError)];
  }

  lemma ClassifyAllAppend(a: seq<Read>, b: seq<Read>)
    ensures ClassifyAll(a + b) == ClassifyAll(a) + ClassifyAll(b)
  {
  }

  /** The first stopping read ends the session: nothing after it is read,
      and the last output is its prompt ("exit") or the farewell
      (interrupt). */
  lemma StopEndsSession(before: seq<ClassifiedRead>, stop: ClassifiedRead, after: seq<ClassifiedRead>, host: Host)
    requires WellFormed(before) && WellFormed(after) && WellFormed([stop])
    requires forall j :: 0 <= j < |before| ==> !Stops(before[j])
    requires Stops(stop)
    ensures WellFormed(before + [stop]) && WellFormed(before + [stop] + after)
    ensures Replay(before + [stop] + after, host) == Replay(before + [stop], host)
    ensures Replay(before + [stop], host).taken == |before| + 1
    ensures
      var ev := Replay(before + [stop], host).events;
      ev[|ev| - 1] == if stop.Classified? then Prompt else Farewell
  {
    var ps := before + [stop];
    assert WellFormed(ps) by {
      forall i | 0 <= i < |ps|
        ensures ps[i].Classified? ==> Dispatchable(ps[i].outcome)
      {
        if i < |before| { assert ps[i] == before[i]; }
      }
    }
    assert FirstStop(ps) == |before| by {
      FirstStopAt(ps, |before|);
    }
    InputAfterStopIgnored(ps, after, host);
    TakenUpToFirstStop(ps, host);
    LastEvent(ps, host);
    var t := Loop(Running, ps, host);
    assert ([Banner] + t.events)[|t.events|] == t.events[|t.events| - 1];
  }

  /** Which reads stop the loop, in terms of the raw line: an interrupt,
      or a line that strips to "exit" in any letter case. Everything else,
      errors included, keeps the loop running. */
  lemma StopsOnRead(r: Read)
    ensures Stops(ClassifyRead(r)) <==> r.Interrupt? || Lower(Strip(r.text)) == "exit"
  {
  }

  /** The first stopping position is the one where the first stop occurs. */
  lemma {:induction false} FirstStopAt(ps: seq<ClassifiedRead>, k: nat)
    requires k < |ps| && Stops(ps[k])
    requires forall j :: 0 <= j < k ==> !Stops(ps[j])
    ensures FirstStop(ps) == k
    decreases k
  {
    if k > 0 {
      FirstStopAt(ps[1..], k - 1);
    }
  }

  /** One turn of the loop, seen from position `i` of the reads: what was
      written so far, then this turn's output, then the rest of the loop. */
  lemma LoopAt(written: seq<Event>, ps: seq<ClassifiedRead>, i: nat, host: Host)
    requires WellFormed(ps) && i < |ps|
    ensures WellFormed(ps[i + 1..])
    ensures
      var next := Step(Running, ps[i], host);
      var rest := Loop(next.0, ps[i + 1..], host);
      && written + Loop(Running, ps[i..], host).events == (written + next.1) + rest.events
      && Loop(Running, ps[i..], host).taken == 1 + rest.taken
  {
    assert ps[i..][0] == ps[i] && ps[i..][1..] == ps[i + 1..];
  }

  /** The `while True` loop of `calculator_interface`, statement by statement. */
  method Interact(input: seq<Read>, host: Host) returns (events: seq<Event>, taken: nat)
    ensures Transcript(events, taken) == Run(input, host)
  {
    ghost var ps := ClassifyAll(input);
    ClassifyAllWellFormed(input);
    assert ps[0..] == ps;
    events := [Banner];
    taken := 0;
    var mode := Running;
    while mode == Running && taken < |input|
      invariant taken <= |input|
      invariant events + Loop(mode, ps[taken..], host).events == Run(input, host).events
      invariant taken + Loop(mode, ps[taken..], host).taken == Run(input, host).taken
      decreases |input| - taken
    {
      var p := ClassifyRead(input[taken]);
      assert p == ps[taken];
      LoopAt(events, ps, taken, host);
      var next := Step(mode, p, host);
      mode := next.0;
      events := events + next.1;
      taken := taken + 1;
    }
    if mode == Running {
      assert ps[taken..] == [];
      events := events + [Prompt, Farewell];
    }
  }
}

=== FILE: wrap.dfy ===
/** Failure-carrying values used where the calculator raises or catches a Python exception. */
module Wrap {

  /** The outcome of a lookup or a parse that may find nothing. */
  datatype Option<+T> = None | Some(value: T)

  /** Either a returned value or the error that was raised instead. */
  datatype Result<+R, +E> = Success(value: R) | Failure(error: E)
}
